=== FILE: README.md ===
# Harvest pick planner — a Dafny model

This project models the step-by-step pick planner of the Path of Exile
"Harvest colour maximizer" (`app.js`). The planner works on a queue of
pending units. Each unit is a pair of coloured slots, or the single
surviving slot of a pair. Every slot has a tier.

When the player picks one slot, every slot of another colour in the other
units goes one tier up, and the picked unit is consumed. The player may
report that the partner of a picked pair survived. In that case the
partner comes back as a one-slot "virtual" unit at its current tier, and
nothing is tiered up.

To recommend a pick, the planner rolls every candidate out greedily and
ranks candidates by the value of the resulting loot. Scores strongly
favour the one colour the player is maximizing.

Modules, one file each:

- `Wrappers` (`wrappers.dfy`): `Option` and `Result`.
- `Colors` (`colors.dfy`): the three colours, lookup by name, and `PerColor` records.
- `Scores` (`scores.dfy`): the tier score table and its properties.
- `Decimal` (`decimal.dfy`): decimal rendering of the numbers in unit labels.
- `Loot` (`loot.dfy`): the colour → tier → count loot record and its value.
- `Queue` (`queue.dfy`): slots, units, candidate picks in scan order, and the tier-up rule.
- `Selection` (`selection.dfy`): the first-wins argmax scan shared by the rollout and the selector.
- `Rollout` (`rollout.dfy`): the greedy rollout.
- `Planner` (`planner.dfy`): session start, simulation, the best-choice selector, the live step and the session loop.
- `Scenario` (`scenario.dfy`): a worked one-pair session.

Modelling choices:

- **Scores** are exact integers counting tenths of a point. So 0.5 is `5`, and 0.3 × x is `3 * x` for x in whole points. There is no floating point.
- **Loot.** Each colour's tier → count map is a dense tally. Entry `t - 1` counts the picks at tier `t`. A tier past the end counts 0, like an absent key.
- **Tiers** are the subset type `Tier` (integers ≥ 1).
- **State** is an immutable `StepState` value. Every operation returns a new state. So `simulateChoice` and `findBestChoice` cannot change the live state, and the deep copy made by `cloneGameState` is value semantics.
- **`doStep`** returns `Result`. With an out-of-range unit or slot index, the source throws a `TypeError` before it changes anything. The model returns `Failure` and leaves the state as it was.
- **Labels.** The source field `label` is `name` here, because `label` is a Dafny keyword. Likewise `parentLabel` is `parentName`.

Four behaviours of the code are easy to misread:

- Passing `survived = true` for a one-slot unit is not an error. The code has no partner slot there (`otherObj` is `null`), so it takes the normal branch (app.js:771, app.js:792).
- A survivor's label is built from the picked unit's own label (app.js:799). Only original pairs can spawn survivors, so this is always the pair's label.
- The "(from … survived)" provenance goes into the log only when the parent label is truthy in JavaScript (app.js:778). An empty parent label is left out as well.
- When no slot is pending, the selector returns `null` (app.js:629, app.js:648). It does not fail. The model returns `None`.

## Model

| member | source | states |
|---|---|---|
| Colors.ParseColor | app.js:98-100 | A name is accepted exactly when it is one of the three configured colour names, and it maps to that colour. |
| Scores.TierScore | app.js:129-139 | Every score is at least 0.5 point, and a maximized-colour score is at least 1 point. |
| Scores.ScoreTable | app.js:16-31 | Tiers 1–4 score 1, 20, 100, 300 for the maximized colour and 0.5, 10, 50, 90 for the others; tier 5 scores 600 and 180. |
| Scores.TableMeetsFormula | app.js:16-31 | The fixed tier-4 entries of both tables equal the high-tier formula evaluated at tier 4. |
| Scores.OtherIsThreeTenths | app.js:22-29 | From tier 5 on, another colour's score is exactly 0.3 of the maximized colour's score. |
| Scores.MaxColorBeatsOther | app.js:16-31 | At every tier the maximized colour scores strictly more than the other colours. |
| Scores.ScoreIncreasing | app.js:16-31 | Both score curves are strictly increasing in the tier. |
| Decimal.DecimalRoundTrip | app.js:598 | Reading back the decimal rendering of a label number gives the number again. |
| Decimal.NatToStringInjective | app.js:598 | Distinct pair numbers render to distinct strings. |
| Decimal.NatToString | app.js:598 | A label number is written as its shortest decimal spelling: at least one character, only digits, and no leading zero. |
| Loot.Bump | app.js:657-660 | Recording a pick creates a missing tier entry as 0 and adds 1 to it; no other tier changes. |
| Loot.AddLoot | app.js:785-788 | Recording a pick raises the count at its colour and tier by exactly 1; every other colour and tier keeps its count. |
| Loot.EmptyLootIsWorthless | app.js:586 | A fresh loot record has every count 0, no picks and value 0. |
| Loot.AddLootValue | app.js:141-152 | Adding one loot entry at colour c, tier t raises the total value by exactly score(t, c is maximized) and the pick count by 1. |
| Loot.ValueIsScoreSum | app.js:141-152 | The total value of loot recorded from a list of picks is the sum of the picks' scores, and the loot holds one pick per list entry. |
| Loot.TallyValue | app.js:146-148 | A colour's value is never negative, and it is at least the score of its highest tier when that tier has a pick. |
| Loot.Value | app.js:141-152 | The total value is at least half a point per recorded pick. |
| Loot.TallyValueAtLeastHalf | app.js:144-149 | Within one colour, every recorded pick adds at least half a point, the lowest score of any tier. |
| Queue.Candidates | app.js:631-632 | The candidates are exactly the valid (unit, slot) picks, one per pending slot, in strictly increasing scan order (unit, then slot). |
| Queue.RemoveAt | app.js:674 | Removing a unit keeps the other units in order and removes exactly its slots from the pending count. |
| Queue.TierUpOthers | app.js:663-674 | After a pick, the queue has one unit fewer. The units before the picked one are tiered up in place, and the units after it shift down by one and are tiered up. |
| Queue.TierUpRule | app.js:813-824 | In every remaining unit, a slot of another colour is exactly one tier higher, and a slot of the picked colour is unchanged. No slot changes colour. |
| Queue.TierUpOthersSlots | app.js:813-824 | Tiering up removes exactly the picked unit's slots from the pending count. |
| Queue.TierUpRaisesScores | app.js:663-671 | A tier-up never lowers a slot's score, and it strictly raises the score of every slot of another colour. |
| Selection.FirstMax | app.js:635-644 | The scan with strict `>` ends on an index whose value is greatest and strictly exceeds every earlier value. |
| Selection.SelectFirstBest | app.js:626-649 | The scan yields nothing exactly when no slot is pending. Otherwise it yields a valid pick whose value is greatest and strictly beats every pick before it in scan order. |
| Selection.FirstBestUnique | app.js:626-649 | At most one pick is greatest with first-wins tie-breaking, so the scan is deterministic. |
| Selection.ScanComplete | app.js:631-648 | A scan that has visited every candidate holds the first-wins best pick, or nothing when no slot is pending. |
| Rollout.GreedyPick | app.js:682-693 | A greedy step returns the first slot in scan order with the strictly greatest score, or nothing when no slot is pending. |
| Rollout.TakePick | app.js:697-716 | Taking a pick removes exactly its unit, partner included: the units before it are tiered up in place, and the units after it shift down by one and are tiered up. The pending count drops by that unit's slots. The loot gains exactly one pick, at the slot's colour and tier, and every other count is kept. |
| Rollout.Greedy | app.js:677-717 | The rollout never removes loot and adds at most one pick per unit of the queue it starts from. |
| Rollout.GreedyTakesOnePerUnit | app.js:677-717 | On a queue of non-empty units, the rollout takes exactly one slot per unit, so the loot grows by the queue's length. |
| Rollout.GreedyOnlyAdds | app.js:697-703 | The rollout never lowers a loot count or the loot value. |
| Rollout.GreedyGainIndependent | app.js:682-716 | The value a rollout adds is the same whatever loot it starts from. |
| Planner.ParsePairs | app.js:92-103 | The first bad pair decides the outcome. A wrong arity reports that pair's 0-based index, and an unknown colour reports its 1-based number. Pairs are accepted exactly when all are good, and then they carry the named colours. |
| Planner.ValidatePairs | app.js:87-106 | No pairs is the `At least one pair is required` error. Otherwise validation succeeds exactly when every pair has two known colour names. |
| Planner.StartStepModeShape | app.js:581-603 | A new session has one two-slot tier-1 unit per pair, in input order, labelled `Pair i+1` with distinct labels. It is well formed, holds twice as many pending slots as pairs, and has empty loot and log. |
| Planner.StartSession | app.js:242-261 | A session starts exactly when the pairs validate and the maximize colour is known. Pair errors come before the colour error, and a pair error is reported as validation found it. A started session is fresh: one unit per pair in input order, holding the entered colours at tier 1, labelled `Pair k+1` with origin k, and not a survivor. Loot, log, survivor counters and colour counts are all empty. |
| Planner.Simulate | app.js:651-727 | A candidate's projection is at least the current loot value plus the candidate's own score. |
| Planner.SimulateDecomposes | app.js:651-720 | The projection is the current loot value, plus the candidate's score, plus the greedy value of the queue without the candidate's whole unit. The partner slot counts for nothing. |
| Planner.SimulateDiscardsPartner | app.js:673-674 | With one unit pending, a candidate's projection is exactly the loot so far plus the candidate's own score. Its partner is discarded, although a live step may keep it as a survivor. |
| Planner.LastPairPicksHigherSlot | app.js:626-649 | With one pair pending, the recommendation is the higher-scoring slot, and the first slot on a tie. |
| Planner.BestChoice | app.js:626-649 | The recommendation is absent exactly when nothing is pending. Otherwise it is a valid pick with its projection, greatest among all candidates, and strictly above every candidate before it in scan order. |
| Planner.BestChoiceIgnoresPastLoot | app.js:626-649 | Two states that differ only in their loot get the same recommended pick. |
| Planner.FindBestChoice | app.js:626-649 | The source's nested scan over units and slots, keeping strictly greater projections, returns exactly the recommendation. |
| Planner.DoStep | app.js:767-826 | Bad indices fail. Otherwise exactly one log entry is appended: the unit's label, the picked slot, the partner slot with the survival answer exactly when the unit is a pair, and the parent label exactly when a survivor has a non-empty one. The picked colour/tier count and colour count rise by exactly 1. The survivor branch replaces the pair with a virtual one-slot unit at the end of the queue: partner colour, un-incremented tier, label `label.n`, other units untouched. The normal branch tiers up the other units and removes the picked one. |
| Planner.DoStepProgress | app.js:791-824 | Every step strictly lowers the pending slot count, adds one pick to the loot and keeps every unit at one or two slots. A normal step also removes a unit. |
| Planner.RunSession | app.js:612-624 | Following the recommendations always reaches the complete state (empty queue). It takes at least one step per unit and at most one per pending slot, with one log line and one pick per step. |
| Scenario.ScenarioStart | app.js:581-603 | One Yellow/Purple pair starts as a single two-slot tier-1 unit `Pair 1`. |
| Scenario.ScenarioRecommendsYellow | app.js:626-649 | With Yellow maximized, the Yellow slot is recommended at 1 point. |
| Scenario.FreshPairRecommendsMaxColor | app.js:626-649 | With one fresh tier-1 pair of the maximized colour and another colour, and no loot yet, the maximized slot is recommended at 1 point. |
| Scenario.ScenarioSurvivor | app.js:792-811 | Picking Yellow with Purple surviving leaves one virtual Purple tier-1 unit `Pair 1.1`. |
| Scenario.ScenarioFinish | app.js:813-824 | Confirming the survivor empties the queue, and the loot is worth 1.5 points. |

## Left out

- DOM rendering, chart drawing and event wiring are left out: the `UI` module, `ChartModule`, `HarvestApp`, `Calculator.displayStep`, and `Utils.debounce`, `sanitizeHtml` and `getColorByName`. They have no planning logic.
- The lifeforce calculator, price loading and timestamp formatting are left out (`UI.updateLifeforceValue`, `getDivineRatio`, `loadPriceTimestamp`). They are `fetch` I/O, `Date` arithmetic and floating-point formatting.
- `Utils.cloneDeep`, `Utils.cloneGameState` and `Utils.shallowClone` have no member: with immutable values, a copy is the value itself.
- `Utils.validateInput` and reading the pair-count field are left out. They are lenient `parseInt` parsing of a UI field. Pairs arrive as typed sequences of names, so the source's `Array.isArray` checks always hold.
- The HTML text of a log line is left out. A log line is the structured `LogEntry`: the label, the picked slot, the partner slot with its survival mark, and the provenance. The markup and the emoji marks are presentation only.
- `Scores.TierScore`: JavaScript doubles, and their rounding of the 0.5 and 0.3 factors, are not modelled. Scores are exact tenths.
- `Planner.Simulate`: the `try`/`catch` that turns a failing valuation into 0 (app.js:719-726) is left out. The valuation is total in the model.
- `Scores.TierScore` is defined only for tiers ≥ 1. The source's lookup is undefined for tier ≤ 0 or a fractional tier, and no such tier ever arises.
- `Planner.RunSession`: the player's survival answers are an input sequence. Once the answers run out, every further answer is "did not survive".
- fetch_prices.py and server.py are left out: an HTTP price fetcher with file rewriting, and a static HTTP server.

=== FILE: colors.dfy ===
/** The three resource colours of the harvest and per-colour records. */
module Colors {
  import opened Wrappers

  datatype Color = Yellow | Purple | Blue

  /** The display name of a colour, as listed in the configuration (app.js:10-14). */
  function ColorName(c: Color): string {
    match c
    case Yellow => "Yellow"
    case Purple => "Purple"
    case Blue => "Blue"
  }

  /** Looks a colour up by its name; an unknown name yields None. */
  function ParseColor(name: string): (r: Option<Color>)
    ensures r.Some? ==> ColorName(r.value) == name
    ensures r.None? <==> forall c: Color :: ColorName(c) != name
  {
    if name == "Yellow" then Some(Yellow)
    else if name == "Purple" then Some(Purple)
    else if name == "Blue" then Some(Blue)
    else None
  }

  /** One value per colour, like the `{ Yellow, Purple, Blue }` records of the planner state. */
  datatype PerColor<T> = PerColor(yellow: T, purple: T, blue: T) {

    function Get(c: Color): T {
      match c
      case Yellow => yellow
      case Purple => purple
      case Blue => blue
    }

    /** Replaces the entry of one colour; the other two are kept. */
    function Set(c: Color, v: T): (r: PerColor<T>)
      ensures r.Get(c) == v
      ensures forall d: Color :: d != c ==> r.Get(d) == Get(d)
    {
      match c
      case Yellow => this.(yellow := v)
      case Purple => this.(purple := v)
      case Blue => this.(blue := v)
    }
  }
}

=== FILE: decimal.dfy ===
/**
  Decimal rendering of natural numbers, as a JavaScript template literal
  renders the integers that go into unit labels (`Pair 3`, `Pair 3.1`).
 */
module Decimal {

  predicate IsDigit(ch: char) {
    '0' <= ch <= '9'
  }

  function DigitChar(d: nat): (ch: char)
    requires d < 10
    ensures IsDigit(ch)
    ensures ch as int - '0' as int == d
  {
    ('0' as int + d) as char
  }

  /** The shortest decimal spelling of `n`: at least one digit, no leading zero. */
  function NatToString(n: nat): (s: string)
    ensures |s| > 0
    ensures forall k :: 0 <= k < |s| ==> IsDigit(s[k])
    ensures |s| > 1 ==> s[0] != '0'
    decreases n
  {
    if n < 10 then [DigitChar(n)] else NatToString(n / 10) + [DigitChar(n % 10)]
  }

  /** Reads a string of digits back as a number. */
  function ParseDecimal(s: string): nat
    requires forall k :: 0 <= k < |s| ==> IsDigit(s[k])
  {
    if |s| == 0 then 0
    else
      assert IsDigit(s[|s| - 1]);
      10 * ParseDecimal(s[..|s| - 1]) + (s[|s| - 1] as int - '0' as int)
  }

  /** Rendering a number and reading it back gives the number again. */
  lemma {:induction false} DecimalRoundTrip(n: nat)
    ensures ParseDecimal(NatToString(n)) == n
    decreases n
  {
    if n >= 10 {
      var s := NatToString(n);
      assert s[..|s| - 1] == NatToString(n / 10);
      DecimalRoundTrip(n / 10);
    }
  }

  /** Distinct numbers get distinct spellings. */
  lemma NatToStringInjective(a: nat, b: nat)
    requires a != b
    ensures NatToString(a) != NatToString(b)
  {
    DecimalRoundTrip(a);
    DecimalRoundTrip(b);
  }
}

=== FILE: loot.dfy ===
/**
  Accumulated loot: for every colour, how many picks were taken at each
  tier (`lootTiers` of the planner state), and its total value.

  The colour -> tier -> count map is kept as a dense tally per colour:
  entry t - 1 of the tally counts the picks at tier t, and a tier past
  the end of the tally has count 0, as an absent key of the source's map.
 */
module Loot {
  import opened Colors
  import opened Scores

  type Tally = seq<nat>

  type Loot = PerColor<Tally>

  /** The loot of a fresh session: every colour empty. */
  function EmptyLoot(): Loot {
    PerColor([], [], [])
  }

  /** The number of picks at tier `t` recorded in a tally (0 when absent). */
  function TallyCount(s: Tally, t: Tier): nat {
    if t <= |s| then s[t - 1] else 0
  }

  /** The number of picks of colour `c` at tier `t`. */
  function Count(loot: Loot, c: Color, t: Tier): nat {
    TallyCount(loot.Get(c), t)
  }

  /** A tally of `n` tiers, none picked. */
  function Zeros(n: nat): (z: Tally)
    ensures |z| == n
    ensures forall k :: 0 <= k < n ==> z[k] == 0
  {
    seq(n, _ => 0)
  }

  /** Records one more pick at tier `t`, creating the entry with count 0 first when it is absent. */
  function Bump(s: Tally, t: Tier): (r: Tally)
    ensures |r| == if t <= |s| then |s| else t
    ensures TallyCount(r, t) == TallyCount(s, t) + 1
    ensures forall u: Tier :: u != t ==> TallyCount(r, u) == TallyCount(s, u)
  {
    if t <= |s| then s[t - 1 := s[t - 1] + 1]
    else s + Zeros(t - 1 - |s|) + [1]
  }

  /** Records one pick of colour `c` at tier `t`. */
  function AddLoot(loot: Loot, c: Color, t: Tier): (r: Loot)
    ensures Count(r, c, t) == Count(loot, c, t) + 1
    ensures forall d: Color, u: Tier :: (d != c || u != t) ==> Count(r, d, u) == Count(loot, d, u)
  {
    loot.Set(c, Bump(loot.Get(c), t))
  }

  /** The value of a tally: the sum of score times count over its tiers. */
  function TallyValue(s: Tally, isMax: bool): (v: int)
    ensures v >= 0
    ensures |s| > 0 && s[|s| - 1] > 0 ==> v >= TierScore(|s|, isMax)
  {
    if |s| == 0 then 0
    else
      var w := TierScore(|s|, isMax);
      ScaledScoreBound(w, s[|s| - 1]);
      TallyValue(s[..|s| - 1], isMax) + w * s[|s| - 1]
  }

  /** A positive score times a count is never negative, and at least the score once the count is positive. */
  lemma ScaledScoreBound(w: int, n: nat)
    requires w > 0
    ensures w * n >= 0
    ensures n > 0 ==> w * n >= w
  {
    if n > 0 {
      assert w * n == w * (n - 1) + w;
    }
  }

  /** The value of one colour's loot. */
  function ColorValue(loot: Loot, c: Color, m: Color): int {
    TallyValue(loot.Get(c), c == m)
  }

  /**
    The total value of the loot when colour `m` is maximized
    (`calculateTotalValue`). Every pick is worth at least half a point.
   */
  function Value(loot: Loot, m: Color): (v: int)
    ensures v >= 5 * LootSize(loot)
  {
    TallyValueAtLeastHalf(loot.yellow, Yellow == m);
    TallyValueAtLeastHalf(loot.purple, Purple == m);
    TallyValueAtLeastHalf(loot.blue, Blue == m);
    ColorValue(loot, Yellow, m) + ColorValue(loot, Purple, m) + ColorValue(loot, Blue, m)
  }

  /** The number of picks recorded in a tally. */
  function TallySize(s: Tally): nat {
    if |s| == 0 then 0 else TallySize(s[..|s| - 1]) + s[|s| - 1]
  }

  /** Each pick in a tally is worth at least the lowest score, half a point. */
  lemma {:induction false} TallyValueAtLeastHalf(s: Tally, isMax: bool)
    ensures TallyValue(s, isMax) >= 5 * TallySize(s)
    decreases |s|
  {
    if |s| > 0 {
      var w := TierScore(|s|, isMax);
      var n := s[|s| - 1];
      var rest := s[..|s| - 1];
      TallyValueAtLeastHalf(rest, isMax);
      ScaledAtLeastHalf(w, n);
      assert TallyValue(s, isMax) == TallyValue(rest, isMax) + w * n;
      assert TallySize(s) == TallySize(rest) + n;
    }
  }

  /** A count times a score of at least half a point is worth at least half a point per pick. */
  lemma {:induction false} ScaledAtLeastHalf(w: int, n: nat)
    requires w >= 5
    ensures w * n >= 5 * n
    decreases n
  {
    if n > 0 {
      ScaledAtLeastHalf(w, n - 1);
      assert w * n == w * (n - 1) + w;
    }
  }

  /** The number of picks recorded in the loot. */
  function LootSize(loot: Loot): nat {
    TallySize(loot.yellow) + TallySize(loot.purple) + TallySize(loot.blue)
  }

  lemma EmptyLootIsWorthless(m: Color)
    ensures Value(EmptyLoot(), m) == 0
    ensures LootSize(EmptyLoot()) == 0
    ensures forall c: Color, t: Tier :: Count(EmptyLoot(), c, t) == 0
  {
  }

  /** Appending tiers with count 0 adds no value and no picks. */
  lemma {:induction false} ZerosAddNothing(s: Tally, n: nat, isMax: bool)
    ensures TallyValue(s + Zeros(n), isMax) == TallyValue(s, isMax)
    ensures TallySize(s + Zeros(n)) == TallySize(s)
    decreases n
  {
    if n > 0 {
      var z := s + Zeros(n);
      assert z[..|z| - 1] == s + Zeros(n - 1);
      assert z[|z| - 1] == 0;
      ZerosAddNothing(s, n - 1, isMax);
    } else {
      assert s + Zeros(n) == s;
    }
  }

  /** Incrementing an existing entry of a tally raises its value by that tier's score. */
  lemma {:induction false} BumpInsideValue(s: Tally, t: Tier, isMax: bool)
    requires t <= |s|
    ensures TallyValue(s[t - 1 := s[t - 1] + 1], isMax) == TallyValue(s, isMax) + TierScore(t, isMax)
    ensures TallySize(s[t - 1 := s[t - 1] + 1]) == TallySize(s) + 1
    decreases |s|
  {
    var r := s[t - 1 := s[t - 1] + 1];
    var n := |s|;
    if t == n {
      assert r[..n - 1] == s[..n - 1];
      var w := TierScore(n, isMax);
      assert w * (s[n - 1] + 1) == w * s[n - 1] + w;
    } else {
      assert r[..n - 1] == s[..n - 1][t - 1 := s[t - 1] + 1];
      BumpInsideValue(s[..n - 1], t, isMax);
    }
  }

  /** Recording a pick at tier `t` raises a tally's value by exactly that tier's score. */
  lemma BumpValue(s: Tally, t: Tier, isMax: bool)
    ensures TallyValue(Bump(s, t), isMax) == TallyValue(s, isMax) + TierScore(t, isMax)
    ensures TallySize(Bump(s, t)) == TallySize(s) + 1
  {
    if t <= |s| {
      BumpInsideValue(s, t, isMax);
    } else {
      var z := s + Zeros(t - 1 - |s|);
      var r := Bump(s, t);
      assert r == z + [1];
      assert r[..|r| - 1] == z;
      ZerosAddNothing(s, t - 1 - |s|, isMax);
    }
  }

  /** Adding one loot entry at colour `c`, tier `t` raises the total value by exactly its score. */
  lemma AddLootValue(loot: Loot, c: Color, t: Tier, m: Color)
    ensures Value(AddLoot(loot, c, t), m) == Value(loot, m) + TierScore(t, c == m)
    ensures LootSize(AddLoot(loot, c, t)) == LootSize(loot) + 1
  {
    BumpValue(loot.Get(c), t, c == m);
  }

  /** A pick as recorded in the loot: its colour and tier. */
  datatype Entry = Entry(color: Color, tier: Tier)

  /** The loot after recording the given picks in order. */
  function Record(loot: Loot, picks: seq<Entry>): Loot {
    if |picks| == 0 then loot
    else AddLoot(Record(loot, picks[..|picks| - 1]), picks[|picks| - 1].color, picks[|picks| - 1].tier)
  }

  /** The sum of the scores of a list of picks. */
  function ScoreSum(picks: seq<Entry>, m: Color): int {
    if |picks| == 0 then 0
    else ScoreSum(picks[..|picks| - 1], m) + TierScore(picks[|picks| - 1].tier, picks[|picks| - 1].color == m)
  }

  /** The total value of recorded loot is the sum of the scores of the individual picks. */
  lemma {:induction false} ValueIsScoreSum(picks: seq<Entry>, m: Color)
    ensures Value(Record(EmptyLoot(), picks), m) == ScoreSum(picks, m)
    ensures LootSize(Record(EmptyLoot(), picks)) == |picks|
    decreases |picks|
  {
    if |picks| > 0 {
      var last := picks[|picks| - 1];
      ValueIsScoreSum(picks[..|picks| - 1], m);
      AddLootValue(Record(EmptyLoot(), picks[..|picks| - 1]), last.color, last.tier, m);
    }
  }
}

=== FILE: planner.dfy ===
/**
  The step planner: session start, the best-choice selector, the live
  transition applied after the player confirms a pick, and the session
  loop that alternates the two until the queue is empty.
 */
module Planner {
  import opened Wrappers
  import opened Colors
  import opened Scores
  import opened Decimal
  import opened Loot
  import opened Queue
  import opened Selection
  import opened Rollout

  /** The partner slot of a picked pair and whether the player reported it survived. */
  datatype PartnerNote = PartnerNote(slot: Slot, survived: bool)

  /**
    One line of the step log: the unit's label, the picked slot, the
    partner slot with its survival mark (pairs only), and the label of
    the unit a survivor was spawned from.
   */
  datatype LogEntry = LogEntry(
    unitName: string,
    picked: Slot,
    partner: Option<PartnerNote>,
    spawnedFrom: Option<string>)

  /**
    The planner state: the pending queue, the number of survivors spawned
    per originating pair, the loot, the picks per colour, the maximized
    colour and the log.
   */
  datatype StepState = StepState(
    queue: seq<PickUnit>,
    virtualCount: map<nat, nat>,
    loot: Loot,
    colorCounts: PerColor<nat>,
    maximizeColor: Color,
    log: seq<LogEntry>)

  /** Why a session could not start; indices as in the source's messages. */
  datatype SetupError =
    | NoPairs
    | BadPairFormat(index: nat)
    | BadColor(pairNumber: nat)
    | BadMaximizeColor

  /** Why a step could not be applied: the unit or the slot index is out of range. */
  datatype StepError = NoSuchUnit | NoSuchSlot

  // ---------------------------------------------------------------------
  // Session start
  // ---------------------------------------------------------------------

  /** A pair as entered: exactly two known colour names. */
  predicate PairOk(pair: seq<string>) {
    |pair| == 2 && ParseColor(pair[0]).Some? && ParseColor(pair[1]).Some?
  }

  /** Checks the first `n` pairs in order and stops at the first bad one. */
  function ParsePairs(pairs: seq<seq<string>>, n: nat): (r: Result<seq<(Color, Color)>, SetupError>)
    requires n <= |pairs|
    ensures r.Success? <==> forall k :: 0 <= k < n ==> PairOk(pairs[k])
    ensures r.Success? ==> |r.value| == n
    ensures r.Success? ==> forall k :: 0 <= k < n ==>
      PairOk(pairs[k]) && ColorName(r.value[k].0) == pairs[k][0] && ColorName(r.value[k].1) == pairs[k][1]
    ensures r.Failure? ==> r.error.BadPairFormat? || r.error.BadColor?
    ensures r.Failure? && r.error.BadPairFormat? ==>
      var i := r.error.index;
      i < n && |pairs[i]| != 2 && forall k :: 0 <= k < i ==> PairOk(pairs[k])
    ensures r.Failure? && r.error.BadColor? ==>
      var i := r.error.pairNumber - 1;
      0 <= i < n && |pairs[i]| == 2 && !PairOk(pairs[i]) && forall k :: 0 <= k < i ==> PairOk(pairs[k])
  {
    if n == 0 then Success([])
    else
      match ParsePairs(pairs, n - 1)
      case Failure(e) => Failure(e)
      case Success(cs) =>
        var pair := pairs[n - 1];
        if |pair| != 2 then Failure(BadPairFormat(n - 1))
        else
          match (ParseColor(pair[0]), ParseColor(pair[1]))
          case (Some(a), Some(b)) => Success(cs + [(a, b)])
          case _ => Failure(BadColor(n))
  }

  /** Validates the entered pairs: at least one, each of two known colours. */
  function ValidatePairs(pairs: seq<seq<string>>): (r: Result<seq<(Color, Color)>, SetupError>)
    ensures r.Success? <==> |pairs| > 0 && forall k :: 0 <= k < |pairs| ==> PairOk(pairs[k])
    ensures r == Failure(NoPairs) <==> |pairs| == 0
    ensures r.Success? ==> |r.value| == |pairs|
    ensures r.Success? ==> forall k :: 0 <= k < |pairs| ==>
      PairOk(pairs[k]) && ColorName(r.value[k].0) == pairs[k][0] && ColorName(r.value[k].1) == pairs[k][1]
  {
    if |pairs| == 0 then Failure(NoPairs) else ParsePairs(pairs, |pairs|)
  }

  /** The label of the pair at position `index`: `Pair 1`, `Pair 2`, ... */
  function PairLabel(index: nat): string {
    "Pair " + NatToString(index + 1)
  }

  /** A fresh pair unit: both colours at tier 1. */
  function NewPair(pair: (Color, Color), index: nat): PickUnit {
    PickUnit([Slot(pair.0, 1), Slot(pair.1, 1)], PairLabel(index), index, false, None)
  }

  /** The state of a new session: one unit per pair, nothing looted, nothing logged. */
  function StartStepMode(pairs: seq<(Color, Color)>, m: Color): (r: StepState)
    ensures |r.queue| == |pairs| && r.maximizeColor == m
    ensures forall k :: 0 <= k < |pairs| ==>
      && r.queue[k].slots == [Slot(pairs[k].0, 1), Slot(pairs[k].1, 1)]
      && r.queue[k].name == PairLabel(k) && r.queue[k].fromPair == k
      && !r.queue[k].isVirtual && r.queue[k].parentName.None?
    ensures r.loot == EmptyLoot() && r.log == [] && r.virtualCount == map[]
    ensures forall c: Color :: r.colorCounts.Get(c) == 0
  {
    StepState(
      seq(|pairs|, k requires 0 <= k < |pairs| => NewPair(pairs[k], k)),
      map[],
      EmptyLoot(),
      PerColor(0, 0, 0),
      m,
      [])
  }

  /** A well-formed state: every pending unit has one or two slots. */
  ghost predicate WellFormed(s: StepState) {
    OneOrTwoSlots(s.queue)
  }

  lemma {:induction false} PendingSlotsOfPairs(q: seq<PickUnit>)
    requires forall k :: 0 <= k < |q| ==> |q[k].slots| == 2
    ensures PendingSlots(q) == 2 * |q|
    decreases |q|
  {
    if |q| > 0 {
      PendingSlotsOfPairs(q[..|q| - 1]);
    }
  }

  /**
    A new session holds one two-slot tier-1 unit per pair, in input order,
    labelled `Pair i+1`, with pairwise distinct labels; it is well formed,
    has twice as many pending slots as pairs, and its loot is worth 0.
   */
  lemma StartStepModeShape(pairs: seq<(Color, Color)>, m: Color)
    ensures var s := StartStepMode(pairs, m);
      && |s.queue| == |pairs|
      && WellFormed(s)
      && PendingSlots(s.queue) == 2 * |pairs|
      && Value(s.loot, m) == 0 && s.log == [] && s.maximizeColor == m
      && (forall k :: 0 <= k < |pairs| ==>
            && s.queue[k].slots == [Slot(pairs[k].0, 1), Slot(pairs[k].1, 1)]
            && s.queue[k].name == "Pair " + NatToString(k + 1)
            && s.queue[k].fromPair == k && !s.queue[k].isVirtual)
      && (forall a, b :: 0 <= a < b < |pairs| ==> s.queue[a].name != s.queue[b].name)
  {
    var s := StartStepMode(pairs, m);
    PendingSlotsOfPairs(s.queue);
    EmptyLootIsWorthless(m);
    forall a, b | 0 <= a < b < |pairs|
      ensures s.queue[a].name != s.queue[b].name
    {
      NatToStringInjective(a + 1, b + 1);
      assert s.queue[a].name[5..] == NatToString(a + 1);
      assert s.queue[b].name[5..] == NatToString(b + 1);
    }
  }

  /** Starts a session from the entered pair names and maximized colour name. */
  function StartSession(pairNames: seq<seq<string>>, maxName: string): (r: Result<StepState, SetupError>)
    ensures r.Success? <==>
      |pairNames| > 0 && (forall k :: 0 <= k < |pairNames| ==> PairOk(pairNames[k])) && ParseColor(maxName).Some?
    ensures r == Failure(NoPairs) <==> |pairNames| == 0
    ensures r == Failure(BadMaximizeColor) <==> ValidatePairs(pairNames).Success? && ParseColor(maxName).None?
    ensures ValidatePairs(pairNames).Failure? ==> r == Failure(ValidatePairs(pairNames).error)
    ensures r.Success? ==>
      && |r.value.queue| == |pairNames|
      && WellFormed(r.value)
      && ColorName(r.value.maximizeColor) == maxName
      && r.value.loot == EmptyLoot() && r.value.log == [] && r.value.virtualCount == map[]
      && (forall c: Color :: r.value.colorCounts.Get(c) == 0)
      && forall k :: 0 <= k < |pairNames| ==>
           |r.value.queue[k].slots| == 2
           && ColorName(r.value.queue[k].slots[0].color) == pairNames[k][0]
           && ColorName(r.value.queue[k].slots[1].color) == pairNames[k][1]
           && r.value.queue[k].slots[0].tier == 1 && r.value.queue[k].slots[1].tier == 1
           && r.value.queue[k].name == "Pair " + NatToString(k + 1)
           && r.value.queue[k].fromPair == k && !r.value.queue[k].isVirtual
  {
    match ValidatePairs(pairNames)
    case Failure(e) => Failure(e)
    case Success(pairs) =>
      match ParseColor(maxName)
      case None => Failure(BadMaximizeColor)
      case Some(m) =>
        StartStepModeShape(pairs, m);
        Success(StartStepMode(pairs, m))
  }

  // ---------------------------------------------------------------------
  // Ranking candidates
  // ---------------------------------------------------------------------

  /**
    The projected value of pick `p`: its loot is recorded, the other
    units are tiered up and its whole unit is removed (no survivor), then
    the rest is played out greedily.
   */
  function Simulate(s: StepState, p: Pick): (v: int)
    requires ValidPick(s.queue, p)
    ensures v >= Value(s.loot, s.maximizeColor) + SlotScore(SlotAt(s.queue, p), s.maximizeColor)
  {
    var m := s.maximizeColor;
    var picked := SlotAt(s.queue, p);
    var (q', loot') := TakePick(s.queue, s.loot, p);
    AddLootValue(s.loot, picked.color, picked.tier, m);
    GreedyOnlyAdds(q', loot', m);
    Value(Greedy(q', loot', m), m)
  }

  /** What the rest of a queue is worth when played out greedily from no loot. */
  function RolloutGain(q: seq<PickUnit>, m: Color): int {
    Value(Greedy(q, EmptyLoot(), m), m)
  }

  /**
    The projection splits into the loot so far, the candidate's own score,
    and the greedy value of the queue WITHOUT the candidate's unit: the
    candidate's partner slot contributes nothing, even though a live step
    may keep it as a survivor.
   */
  lemma SimulateDecomposes(s: StepState, p: Pick)
    requires ValidPick(s.queue, p)
    ensures var m := s.maximizeColor;
      var picked := SlotAt(s.queue, p);
      Simulate(s, p) == Value(s.loot, m) + SlotScore(picked, m) + RolloutGain(TierUpOthers(s.queue, p.unit, picked.color), m)
  {
    var m := s.maximizeColor;
    var picked := SlotAt(s.queue, p);
    var (q', loot') := TakePick(s.queue, s.loot, p);
    AddLootValue(s.loot, picked.color, picked.tier, m);
    GreedyGainIndependent(q', loot', EmptyLoot(), m);
    EmptyLootIsWorthless(m);
  }

  /** With a single pending pair, a candidate is worth exactly its own score: the partner is discarded. */
  lemma SimulateDiscardsPartner(s: StepState, p: Pick)
    requires |s.queue| == 1
    requires ValidPick(s.queue, p)
    ensures Simulate(s, p) == Value(s.loot, s.maximizeColor) + SlotScore(SlotAt(s.queue, p), s.maximizeColor)
  {
    SimulateDecomposes(s, p);
    var picked := SlotAt(s.queue, p);
    var q' := TierUpOthers(s.queue, p.unit, picked.color);
    assert |q'| == 0;
    assert PendingSlots(q') == 0;
    EmptyLootIsWorthless(s.maximizeColor);
  }

  /**
    With a single pair pending, the recommendation is the slot with the
    higher score, the first slot on a tie: the rollout adds nothing for
    either candidate, since it discards the partner.
   */
  lemma LastPairPicksHigherSlot(s: StepState)
    requires |s.queue| == 1 && |s.queue[0].slots| == 2
    ensures BestChoice(s).Some?
    ensures var m := s.maximizeColor;
      var first := SlotScore(s.queue[0].slots[0], m);
      var second := SlotScore(s.queue[0].slots[1], m);
      BestChoice(s).value.pick == (if second > first then Pick(0, 1) else Pick(0, 0))
  {
    var q := s.queue;
    var m := s.maximizeColor;
    assert PendingSlots(q) == 2 by {
      assert q[..0] == [];
    }
    var r := BestChoice(s).value;
    SimulateDiscardsPartner(s, Pick(0, 0));
    SimulateDiscardsPartner(s, Pick(0, 1));
    assert ValidPick(q, Pick(0, 0)) && ValidPick(q, Pick(0, 1));
    assert r.pick == Pick(0, 0) || r.pick == Pick(0, 1);
  }

  /** The value the selector ranks a pick by: its projection. */
  function ValueOfPick(s: StepState): Pick -> int {
    p => if ValidPick(s.queue, p) then Simulate(s, p) else 0
  }

  /**
    The recommended pick: the first candidate, in scan order, whose
    projected value is strictly greatest; None exactly when no slot is pending.
   */
  function BestChoice(s: StepState): (r: Option<Choice>)
    ensures r.None? <==> PendingSlots(s.queue) == 0
    ensures r.Some? ==> ValidPick(s.queue, r.value.pick) && r.value.value == Simulate(s, r.value.pick)
    ensures r.Some? ==> forall d :: ValidPick(s.queue, d) ==> Simulate(s, d) <= r.value.value
    ensures r.Some? ==> forall d :: ValidPick(s.queue, d) && Before(d, r.value.pick) ==> Simulate(s, d) < r.value.value
  {
    match SelectFirstBest(s.queue, ValueOfPick(s))
    case None => None
    case Some(p) =>
      assert IsFirstBest(s.queue, ValueOfPick(s), p);
      Some(Choice(p, Simulate(s, p)))
  }

  /**
    The recommendation does not depend on the loot gathered so far: two
    states that differ only in their loot get the same pick.
   */
  lemma BestChoiceIgnoresPastLoot(s: StepState, other: Loot)
    ensures var r1 := BestChoice(s);
      var r2 := BestChoice(s.(loot := other));
      (r1.Some? <==> r2.Some?) && (r1.Some? ==> r1.value.pick == r2.value.pick)
  {
    var s2 := s.(loot := other);
    var r1 := BestChoice(s);
    var r2 := BestChoice(s2);
    if r1.Some? {
      var delta := Value(other, s.maximizeColor) - Value(s.loot, s.maximizeColor);
      forall d | ValidPick(s.queue, d)
        ensures Simulate(s2, d) == Simulate(s, d) + delta
      {
        SimulateDecomposes(s, d);
        SimulateDecomposes(s2, d);
      }
      assert IsFirstBest(s.queue, ValueOfPick(s2), r1.value.pick);
      assert IsFirstBest(s.queue, ValueOfPick(s2), r2.value.pick);
      FirstBestUnique(s.queue, ValueOfPick(s2), r1.value.pick, r2.value.pick);
    }
  }

  /**
    The selector as the source runs it: every slot of every unit is
    simulated in scan order, and the best so far is replaced only by a
    strictly greater projection. It only reads the state.
   */
  method FindBestChoice(s: StepState) returns (r: Option<Choice>)
    ensures r == BestChoice(s)
  {
    var q := s.queue;
    ghost var value := ValueOfPick(s);
    r := None;
    var i := 0;
    while i < |q|
      invariant 0 <= i <= |q|
      invariant ScannedUpTo(q, value, r, Pick(i, 0))
    {
      var j := 0;
      while j < |q[i].slots|
        invariant 0 <= j <= |q[i].slots|
        invariant ScannedUpTo(q, value, r, Pick(i, j))
      {
        var v := Simulate(s, Pick(i, j));
        assert v == value(Pick(i, j));
        ScanStep(q, value, r, i, j);
        if r.None? || v > r.value.value {
          r := Some(Choice(Pick(i, j), v));
        }
        j := j + 1;
      }
      ScanNextUnit(q, value, r, i);
      i := i + 1;
    }
    ScanComplete(q, value, r);
    var expected := BestChoice(s);
    if r.Some? {
      assert IsFirstBest(q, value, expected.value.pick);
      FirstBestUnique(q, value, r.value.pick, expected.value.pick);
    }
  }

  // ---------------------------------------------------------------------
  // The live transition
  // ---------------------------------------------------------------------

  /**
    The log line of picking slot `j` of unit `u`: the unit's label and the
    picked slot; for a pair, the other slot with the survival answer; and,
    for a survivor with a non-empty parent label, where it came from.
   */
  function EntryFor(u: PickUnit, j: nat, survived: bool): (e: LogEntry)
    requires j < |u.slots|
    ensures e.unitName == u.name && e.picked == u.slots[j]
    ensures e.partner.Some? <==> |u.slots| == 2
    ensures e.partner.Some? ==> e.partner.value.slot == u.slots[1 - j] && e.partner.value.survived == survived
    ensures e.spawnedFrom.Some? <==> u.isVirtual && u.parentName.Some? && u.parentName.value != ""
    ensures e.spawnedFrom.Some? ==> e.spawnedFrom == u.parentName
  {
    var partner := if |u.slots| == 2 then Some(PartnerNote(u.slots[1 - j], survived)) else None;
    var from := if u.isVirtual && u.parentName.Some? && u.parentName.value != "" then u.parentName else None;
    LogEntry(u.name, u.slots[j], partner, from)
  }

  /** The survivor rule applies: an original pair whose partner the player reports as surviving. */
  predicate SpawnsSurvivor(u: PickUnit, survived: bool) {
    !u.isVirtual && |u.slots| == 2 && survived
  }

  /** The number of survivors already spawned from pair `origin`. */
  function SpawnedFrom(vc: map<nat, nat>, origin: nat): nat {
    if origin in vc then vc[origin] else 0
  }

  /**
    Applies the confirmed pick of slot `j` of unit `i`. The pick is
    logged and its loot recorded. If the survivor rule applies, the pair
    is replaced, at the END of the queue, by a one-slot virtual unit
    holding the partner slot at its current tier, and nothing is tiered
    up; otherwise the other units are tiered up and the unit is removed.
    Out-of-range indices fail and leave the state as it was.
   */
  function DoStep(s: StepState, survived: bool, i: nat, j: nat): (r: Result<StepState, StepError>)
    ensures r.Failure? <==> !ValidPick(s.queue, Pick(i, j))
    ensures r.Failure? ==> r.error == (if i < |s.queue| then NoSuchSlot else NoSuchUnit)
    ensures r.Success? ==>
      var u := s.queue[i];
      var picked := u.slots[j];
      var t := r.value;
      && t.maximizeColor == s.maximizeColor
      && |t.log| == |s.log| + 1 && t.log[..|s.log|] == s.log
      && t.log[|s.log|].unitName == u.name && t.log[|s.log|].picked == picked
      && (t.log[|s.log|].partner.Some? <==> |u.slots| == 2)
      && (|u.slots| == 2 ==> t.log[|s.log|].partner == Some(PartnerNote(u.slots[1 - j], survived)))
      && (t.log[|s.log|].spawnedFrom.Some? <==> u.isVirtual && u.parentName.Some? && u.parentName.value != "")
      && (t.log[|s.log|].spawnedFrom.Some? ==> t.log[|s.log|].spawnedFrom == u.parentName)
      && Count(t.loot, picked.color, picked.tier) == Count(s.loot, picked.color, picked.tier) + 1
      && (forall c: Color, tier: Tier :: (c != picked.color || tier != picked.tier) ==>
            Count(t.loot, c, tier) == Count(s.loot, c, tier))
      && t.colorCounts.Get(picked.color) == s.colorCounts.Get(picked.color) + 1
      && (forall c: Color :: c != picked.color ==> t.colorCounts.Get(c) == s.colorCounts.Get(c))
    ensures r.Success? && SpawnsSurvivor(s.queue[i], survived) ==>
      var u := s.queue[i];
      var n := SpawnedFrom(s.virtualCount, u.fromPair) + 1;
      var t := r.value;
      && |t.queue| == |s.queue|
      && (forall k :: 0 <= k < i ==> t.queue[k] == s.queue[k])
      && (forall k :: i <= k < |s.queue| - 1 ==> t.queue[k] == s.queue[k + 1])
      && t.queue[|s.queue| - 1] == PickUnit([u.slots[1 - j]], u.name + "." + NatToString(n), u.fromPair, true, Some(u.name))
      && t.virtualCount == s.virtualCount[u.fromPair := n]
    ensures r.Success? && !SpawnsSurvivor(s.queue[i], survived) ==>
      var c := s.queue[i].slots[j].color;
      var t := r.value;
      && |t.queue| == |s.queue| - 1
      && (forall k :: 0 <= k < i ==> t.queue[k] == TierUp(s.queue[k], c))
      && (forall k :: i <= k < |t.queue| ==> t.queue[k] == TierUp(s.queue[k + 1], c))
      && t.virtualCount == s.virtualCount
  {
    if i >= |s.queue| then Failure(NoSuchUnit)
    else
      var u := s.queue[i];
      if j >= |u.slots| then Failure(NoSuchSlot)
      else
        var picked := u.slots[j];
        var logged := s.(
          log := s.log + [EntryFor(u, j, survived)],
          loot := AddLoot(s.loot, picked.color, picked.tier),
          colorCounts := s.colorCounts.Set(picked.color, s.colorCounts.Get(picked.color) + 1));
        if SpawnsSurvivor(u, survived) then
          var n := SpawnedFrom(s.virtualCount, u.fromPair) + 1;
          var survivor := PickUnit([u.slots[1 - j]], u.name + "." + NatToString(n), u.fromPair, true, Some(u.name));
          Success(logged.(
            virtualCount := s.virtualCount[u.fromPair := n],
            queue := RemoveAt(s.queue, i) + [survivor]))
        else
          Success(logged.(queue := TierUpOthers(s.queue, i, picked.color)))
  }

  /**
    Every successful step strictly decreases the number of pending slots,
    records exactly one pick, keeps the state well formed, and a normal
    step removes a unit while a survivor step keeps the unit count.
   */
  lemma DoStepProgress(s: StepState, survived: bool, i: nat, j: nat)
    requires DoStep(s, survived, i, j).Success?
    requires WellFormed(s)
    ensures var t := DoStep(s, survived, i, j).value;
      && PendingSlots(t.queue) < PendingSlots(s.queue)
      && WellFormed(t)
      && LootSize(t.loot) == LootSize(s.loot) + 1
      && |t.queue| <= |s.queue|
      && (!SpawnsSurvivor(s.queue[i], survived) ==> |t.queue| == |s.queue| - 1)
  {
    var u := s.queue[i];
    var t := DoStep(s, survived, i, j).value;
    AddLootValue(s.loot, u.slots[j].color, u.slots[j].tier, s.maximizeColor);
    if SpawnsSurvivor(u, survived) {
      var rest := RemoveAt(s.queue, i);
      PendingSlotsAppend(rest, [t.queue[|t.queue| - 1]]);
      assert t.queue == rest + [t.queue[|t.queue| - 1]];
    } else {
      TierUpOthersSlots(s.queue, i, u.slots[j].color);
    }
  }

  /**
    The session as the player drives it: while units are pending, take the
    recommended pick and apply it with the next survival answer (no
    answer left counts as "did not survive"). It always ends in the
    complete state, after at least one step per pending unit and at most
    one per pending slot, with one log line and one loot pick per step.
   */
  function RunSession(s: StepState, answers: seq<bool>): (r: StepState)
    requires WellFormed(s)
    ensures r.queue == []
    ensures |r.log| >= |s.log|
    ensures |r.log| - |s.log| == LootSize(r.loot) - LootSize(s.loot)
    ensures |s.queue| <= |r.log| - |s.log| <= PendingSlots(s.queue)
    decreases PendingSlots(s.queue)
  {
    if |s.queue| == 0 then s
    else
      NonEmptyHasPick(s.queue);
      var c := BestChoice(s).value;
      var survived := |answers| > 0 && answers[0];
      var t := DoStep(s, survived, c.pick.unit, c.pick.slot).value;
      DoStepProgress(s, survived, c.pick.unit, c.pick.slot);
      RunSession(t, if |answers| > 0 then answers[1..] else [])
  }
}

=== FILE: queue.dfy ===
/**
  The pending pick queue: units of one or two slots, the candidate picks
  they offer in scan order, and the tier-up rule applied after a pick.
 */
module Queue {
  import opened Wrappers
  import opened Colors
  import opened Scores

  /** One pickable slot: a colour at a tier. */
  datatype Slot = Slot(color: Color, tier: Tier)

  /**
    A pending unit: a pair of slots, or the single slot of a survivor.
    `name` is its display label (`Pair 3`, or `Pair 3.1` for a survivor);
    `fromPair` is the index of the originating pair, shared by a pair and
    its survivors; `isVirtual` marks a survivor and `parentName` is the label of
    the unit it was spawned from.
   */
  datatype PickUnit = PickUnit(
    slots: seq<Slot>,
    name: string,
    fromPair: nat,
    isVirtual: bool,
    parentName: Option<string>)

  /** A candidate pick: slot `slot` of the unit at position `unit`. */
  datatype Pick = Pick(unit: nat, slot: nat)

  predicate ValidPick(q: seq<PickUnit>, p: Pick) {
    p.unit < |q| && p.slot < |q[p.unit].slots|
  }

  function SlotAt(q: seq<PickUnit>, p: Pick): Slot
    requires ValidPick(q, p)
  {
    q[p.unit].slots[p.slot]
  }

  /** Scan order: units in queue order, then slots in their order within a unit. */
  predicate Before(a: Pick, b: Pick) {
    a.unit < b.unit || (a.unit == b.unit && a.slot < b.slot)
  }

  /** The number of pending slots: the measure every step decreases. */
  function PendingSlots(q: seq<PickUnit>): nat {
    if |q| == 0 then 0 else PendingSlots(q[..|q| - 1]) + |q[|q| - 1].slots|
  }

  /** All candidate picks of a queue, in scan order. */
  function Candidates(q: seq<PickUnit>): (cs: seq<Pick>)
    ensures |cs| == PendingSlots(q)
    ensures forall k :: 0 <= k < |cs| ==> ValidPick(q, cs[k])
    ensures forall p :: ValidPick(q, p) ==> p in cs
    ensures forall a, b :: 0 <= a < b < |cs| ==> Before(cs[a], cs[b])
  {
    if |q| == 0 then []
    else
      var last := |q| - 1;
      var front := Candidates(q[..last]);
      var back := seq(|q[last].slots|, (j: nat) => Pick(last, j));
      assert forall p :: ValidPick(q, p) && p.unit == last ==> p == back[p.slot];
      assert forall p :: ValidPick(q, p) && p.unit < last ==> ValidPick(q[..last], p);
      front + back
  }

  lemma {:induction false} PendingSlotsAppend(a: seq<PickUnit>, b: seq<PickUnit>)
    ensures PendingSlots(a + b) == PendingSlots(a) + PendingSlots(b)
    decreases |b|
  {
    if |b| == 0 {
      assert a + b == a;
    } else {
      assert (a + b)[..|a + b| - 1] == a + b[..|b| - 1];
      PendingSlotsAppend(a, b[..|b| - 1]);
    }
  }

  /** The queue without its unit at position `i`; the others keep their order. */
  function RemoveAt(q: seq<PickUnit>, i: nat): (r: seq<PickUnit>)
    requires i < |q|
    ensures |r| == |q| - 1
    ensures forall k :: 0 <= k < i ==> r[k] == q[k]
    ensures forall k :: i <= k < |r| ==> r[k] == q[k + 1]
    ensures PendingSlots(r) == PendingSlots(q) - |q[i].slots|
  {
    assert q == q[..i] + [q[i]] + q[i + 1..];
    PendingSlotsAppend(q[..i] + [q[i]], q[i + 1..]);
    PendingSlotsAppend(q[..i], [q[i]]);
    PendingSlotsAppend(q[..i], q[i + 1..]);
    q[..i] + q[i + 1..]
  }

  /** A slot after a pick of colour `c`: a slot of another colour goes one tier up. */
  function TierUpSlot(s: Slot, c: Color): (r: Slot)
    ensures r.color == s.color
    ensures r.tier == if s.color == c then s.tier else s.tier + 1
  {
    if s.color != c then s.(tier := s.tier + 1) else s
  }

  /** A unit after a pick of colour `c` elsewhere; only the tiers of its slots change. */
  function TierUp(u: PickUnit, c: Color): (r: PickUnit)
    ensures |r.slots| == |u.slots|
    ensures forall k :: 0 <= k < |u.slots| ==> r.slots[k] == TierUpSlot(u.slots[k], c)
    ensures r.name == u.name && r.fromPair == u.fromPair
    ensures r.isVirtual == u.isVirtual && r.parentName == u.parentName
  {
    u.(slots := seq(|u.slots|, k requires 0 <= k < |u.slots| => TierUpSlot(u.slots[k], c)))
  }

  /**
    The queue after picking a slot of colour `c` from unit `i` without a
    survivor: every other unit is tiered up, then unit `i` is removed.
   */
  function TierUpOthers(q: seq<PickUnit>, i: nat, c: Color): (r: seq<PickUnit>)
    requires i < |q|
    ensures |r| == |q| - 1
    ensures forall k :: 0 <= k < i ==> r[k] == TierUp(q[k], c)
    ensures forall k :: i <= k < |r| ==> r[k] == TierUp(q[k + 1], c)
  {
    var raised := seq(|q|, k requires 0 <= k < |q| => if k == i then q[k] else TierUp(q[k], c));
    RemoveAt(raised, i)
  }

  /** Tiering up never changes how many slots are pending, besides the removed unit's. */
  lemma {:induction false} TierUpAllKeepsSlots(q: seq<PickUnit>, r: seq<PickUnit>, c: Color)
    requires |r| == |q|
    requires forall k :: 0 <= k < |q| ==> r[k] == TierUp(q[k], c)
    ensures PendingSlots(r) == PendingSlots(q)
    decreases |q|
  {
    if |q| > 0 {
      TierUpAllKeepsSlots(q[..|q| - 1], r[..|r| - 1], c);
    }
  }

  lemma TierUpOthersSlots(q: seq<PickUnit>, i: nat, c: Color)
    requires i < |q|
    ensures PendingSlots(TierUpOthers(q, i, c)) == PendingSlots(q) - |q[i].slots|
  {
    var r := TierUpOthers(q, i, c);
    var q' := RemoveAt(q, i);
    TierUpAllKeepsSlots(q', r, c);
  }

  /**
    The tier-up rule, slot by slot: in every remaining unit, a slot of
    a colour other than the picked one is exactly one tier higher, a
    slot of the picked colour is unchanged, and colours never change.
   */
  lemma TierUpRule(q: seq<PickUnit>, i: nat, c: Color, k: nat, j: nat)
    requires i < |q|
    requires k < |q| - 1
    requires j < |TierUpOthers(q, i, c)[k].slots|
    ensures var src := if k < i then q[k] else q[k + 1];
            var before := src.slots[j];
            var after := TierUpOthers(q, i, c)[k].slots[j];
            after.color == before.color &&
            (before.color != c ==> after.tier == before.tier + 1) &&
            (before.color == c ==> after.tier == before.tier)
  {
  }

  /** After a tier-up, no slot scores less than before, and every slot of another colour scores strictly more. */
  lemma TierUpRaisesScores(s: Slot, c: Color, m: Color)
    ensures TierScore(s.tier, s.color == m) <= TierScore(TierUpSlot(s, c).tier, s.color == m)
    ensures s.color != c ==> TierScore(s.tier, s.color == m) < TierScore(TierUpSlot(s, c).tier, s.color == m)
  {
    if s.color != c {
      ScoreStep(s.tier, s.color == m);
    }
  }

  /** Every unit in the queue has at least one slot. */
  ghost predicate AllNonEmpty(q: seq<PickUnit>) {
    forall k :: 0 <= k < |q| ==> |q[k].slots| > 0
  }

  /** Every unit in the queue has one or two slots. */
  ghost predicate OneOrTwoSlots(q: seq<PickUnit>) {
    forall k :: 0 <= k < |q| ==> 1 <= |q[k].slots| <= 2
  }
}

=== FILE: rollout.dfy ===
/**
  The greedy rollout used to rank a candidate: after the candidate pick,
  the rest of the queue is played out by always taking the single
  highest-scoring slot (first one in scan order on ties), tiering up the
  other units and removing the picked one, until the queue is empty.
  The rollout never applies the survivor rule: a picked unit is removed
  together with its partner slot.
 */
module Rollout {
  import opened Wrappers
  import opened Colors
  import opened Scores
  import opened Loot
  import opened Queue
  import opened Selection

  /** The score of a slot when colour `m` is maximized. */
  function SlotScore(s: Slot, m: Color): int {
    TierScore(s.tier, s.color == m)
  }

  /** The value the greedy step ranks a pick by: the score of its slot. */
  function ScoreOfPick(q: seq<PickUnit>, m: Color): Pick -> int {
    p => if ValidPick(q, p) then SlotScore(SlotAt(q, p), m) else 0
  }

  /** One greedy step: the first slot, in scan order, with the strictly greatest score. */
  function GreedyPick(q: seq<PickUnit>, m: Color): (r: Option<Pick>)
    ensures r.None? <==> PendingSlots(q) == 0
    ensures r.Some? ==> ValidPick(q, r.value)
    ensures r.Some? ==> forall d :: ValidPick(q, d) ==> SlotScore(SlotAt(q, d), m) <= SlotScore(SlotAt(q, r.value), m)
    ensures r.Some? ==> forall d :: ValidPick(q, d) && Before(d, r.value) ==> SlotScore(SlotAt(q, d), m) < SlotScore(SlotAt(q, r.value), m)
  {
    var r := SelectFirstBest(q, ScoreOfPick(q, m));
    assert r.Some? ==> IsFirstBest(q, ScoreOfPick(q, m), r.value);
    r
  }

  /** Records the loot of pick `p` and advances the queue past it without a survivor. */
  function TakePick(q: seq<PickUnit>, loot: Loot, p: Pick): (r: (seq<PickUnit>, Loot))
    requires ValidPick(q, p)
    ensures |r.0| == |q| - 1
    ensures forall k :: 0 <= k < p.unit ==> r.0[k] == TierUp(q[k], SlotAt(q, p).color)
    ensures forall k :: p.unit <= k < |r.0| ==> r.0[k] == TierUp(q[k + 1], SlotAt(q, p).color)
    ensures PendingSlots(r.0) == PendingSlots(q) - |q[p.unit].slots|
    ensures var s := SlotAt(q, p);
      && Count(r.1, s.color, s.tier) == Count(loot, s.color, s.tier) + 1
      && forall c: Color, t: Tier :: (c != s.color || t != s.tier) ==> Count(r.1, c, t) == Count(loot, c, t)
    ensures LootSize(r.1) == LootSize(loot) + 1
  {
    var s := SlotAt(q, p);
    TierUpOthersSlots(q, p.unit, s.color);
    // Only the pick-count clause is needed here, which holds whatever colour is maximized.
    AddLootValue(loot, s.color, s.tier, s.color);
    (TierUpOthers(q, p.unit, s.color), AddLoot(loot, s.color, s.tier))
  }

  /**
    Plays the queue out greedily and returns the final loot. Every round
    consumes one unit and takes one pick, so at most one pick per unit is
    added.
   */
  function Greedy(q: seq<PickUnit>, loot: Loot, m: Color): (r: Loot)
    ensures LootSize(loot) <= LootSize(r) <= LootSize(loot) + |q|
    decreases |q|
  {
    match GreedyPick(q, m)
    case None => loot
    case Some(p) =>
      var (q', loot') := TakePick(q, loot, p);
      Greedy(q', loot', m)
  }

  /** Removing a unit and tiering up the rest keeps every remaining unit non-empty. */
  lemma TakePickKeepsNonEmpty(q: seq<PickUnit>, loot: Loot, p: Pick)
    requires ValidPick(q, p)
    requires AllNonEmpty(q)
    ensures AllNonEmpty(TakePick(q, loot, p).0)
  {
    var r := TakePick(q, loot, p).0;
    forall k | 0 <= k < |r|
      ensures |r[k].slots| > 0
    {
      if k < p.unit {
        assert |r[k].slots| == |q[k].slots|;
      } else {
        assert |r[k].slots| == |q[k + 1].slots|;
      }
    }
  }

  /** A queue of non-empty units has a pick whenever it has a unit. */
  lemma NonEmptyHasPick(q: seq<PickUnit>)
    requires AllNonEmpty(q)
    requires |q| > 0
    ensures PendingSlots(q) > 0
  {
    assert ValidPick(q, Pick(0, 0));
    assert Pick(0, 0) in Candidates(q);
  }

  /**
    The rollout takes exactly one slot from every unit of a queue of
    non-empty units: the loot grows by the queue's length.
   */
  lemma {:induction false} GreedyTakesOnePerUnit(q: seq<PickUnit>, loot: Loot, m: Color)
    requires AllNonEmpty(q)
    ensures LootSize(Greedy(q, loot, m)) == LootSize(loot) + |q|
    decreases |q|
  {
    if |q| > 0 {
      NonEmptyHasPick(q);
      var p := GreedyPick(q, m).value;
      var s := SlotAt(q, p);
      AddLootValue(loot, s.color, s.tier, m);
      TakePickKeepsNonEmpty(q, loot, p);
      var (q', loot') := TakePick(q, loot, p);
      GreedyTakesOnePerUnit(q', loot', m);
    }
  }

  /** The rollout only adds loot: no count ever goes down. */
  lemma {:induction false} GreedyOnlyAdds(q: seq<PickUnit>, loot: Loot, m: Color)
    ensures forall c: Color, t: Tier :: Count(loot, c, t) <= Count(Greedy(q, loot, m), c, t)
    ensures Value(loot, m) <= Value(Greedy(q, loot, m), m)
    decreases |q|
  {
    match GreedyPick(q, m)
    case None =>
    case Some(p) =>
      var s := SlotAt(q, p);
      AddLootValue(loot, s.color, s.tier, m);
      var (q', loot') := TakePick(q, loot, p);
      GreedyOnlyAdds(q', loot', m);
  }

  /**
    The value a rollout adds does not depend on the loot it starts from:
    the greedy choices look only at the queue.
   */
  lemma {:induction false} GreedyGainIndependent(q: seq<PickUnit>, l1: Loot, l2: Loot, m: Color)
    ensures Value(Greedy(q, l1, m), m) - Value(l1, m) == Value(Greedy(q, l2, m), m) - Value(l2, m)
    decreases |q|
  {
    match GreedyPick(q, m)
    case None =>
    case Some(p) =>
      var s := SlotAt(q, p);
      AddLootValue(l1, s.color, s.tier, m);
      AddLootValue(l2, s.color, s.tier, m);
      GreedyGainIndependent(TakePick(q, l1, p).0, TakePick(q, l1, p).1, TakePick(q, l2, p).1, m);
  }
}

=== FILE: scenario.dfy ===
/**
  A worked session: one Yellow/Purple pair with Yellow maximized, the
  Yellow slot picked first with its partner surviving, then the survivor.
 */
module Scenario {
  import opened Wrappers
  import opened Colors
  import opened Loot
  import opened Queue
  import opened Selection
  import opened Planner
  import Decimal
  import opened Rollout

  /** The state right after the session starts. */
  function Start(): StepState {
    StepState([PickUnit([Slot(Yellow, 1), Slot(Purple, 1)], "Pair 1", 0, false, None)],
      map[], EmptyLoot(), PerColor(0, 0, 0), Yellow, [])
  }

  /** The single pair enters as one two-slot tier-1 unit labelled `Pair 1`. */
  lemma ScenarioStart()
    ensures StartSession([["Yellow", "Purple"]], "Yellow") == Success(Start())
  {
    var names := [["Yellow", "Purple"]];
    assert ParseColor("Yellow") == Some(Yellow) && ParseColor("Purple") == Some(Purple);
    assert ParsePairs(names, 0) == Success([]);
    assert |names[0]| == 2 && names[0][0] == "Yellow" && names[0][1] == "Purple";
    assert [] + [(Yellow, Purple)] == [(Yellow, Purple)];
    assert ParsePairs(names, 1) == Success([(Yellow, Purple)]);
    assert ValidatePairs(names) == Success([(Yellow, Purple)]);
    assert Decimal.NatToString(1) == "1";
    assert PairLabel(0) == "Pair 1";
    var s0 := StartStepMode([(Yellow, Purple)], Yellow);
    assert |s0.queue| == 1 && s0.queue[0] == NewPair((Yellow, Purple), 0);
    assert s0.queue == Start().queue;
  }

  /** The Yellow slot is recommended, projected at 1 point (10 tenths). */
  lemma ScenarioRecommendsYellow()
    ensures BestChoice(Start()) == Some(Choice(Pick(0, 0), 10))
  {
    FreshPairRecommendsMaxColor(Start(), Purple);
  }

  /** A lone pair whose first slot has the maximized colour and the second another, both at tier 1: the first is recommended at its score. */
  lemma FreshPairRecommendsMaxColor(s: StepState, other: Color)
    requires |s.queue| == 1
    requires s.queue[0].slots == [Slot(s.maximizeColor, 1), Slot(other, 1)]
    requires other != s.maximizeColor
    requires s.loot == EmptyLoot()
    ensures BestChoice(s) == Some(Choice(Pick(0, 0), 10))
  {
    var m := s.maximizeColor;
    var first := s.queue[0].slots[0];
    assert SlotScore(first, m) == 10;
    assert SlotScore(s.queue[0].slots[1], m) == 5;
    LastPairPicksHigherSlot(s);
    var r := BestChoice(s).value;
    assert r.pick == Pick(0, 0);
    SimulateDiscardsPartner(s, Pick(0, 0));
    EmptyLootIsWorthless(m);
    assert SlotAt(s.queue, Pick(0, 0)) == first;
    assert r.value == Simulate(s, Pick(0, 0)) == 10;
  }

  /** Picking Yellow with Purple surviving leaves one virtual Purple tier-1 unit `Pair 1.1`. */
  lemma ScenarioSurvivor()
    ensures DoStep(Start(), true, 0, 0).Success?
    ensures var s1 := DoStep(Start(), true, 0, 0).value;
      && s1.queue == [PickUnit([Slot(Purple, 1)], "Pair 1.1", 0, true, Some("Pair 1"))]
      && s1.loot == AddLoot(EmptyLoot(), Yellow, 1)
      && s1.maximizeColor == Yellow
  {
    var s0 := Start();
    assert Decimal.NatToString(1) == "1";
    assert SpawnedFrom(s0.virtualCount, 0) == 0;
    assert RemoveAt(s0.queue, 0) == [];
    assert "Pair 1" + "." + "1" == "Pair 1.1";
  }

  /** Confirming the survivor completes the session with 1 + 0.5 = 1.5 points (15 tenths). */
  lemma ScenarioFinish()
    ensures var s1 := DoStep(Start(), true, 0, 0).value;
      && DoStep(s1, false, 0, 0).Success?
      && DoStep(s1, false, 0, 0).value.queue == []
      && Value(DoStep(s1, false, 0, 0).value.loot, Yellow) == 15
  {
    ScenarioSurvivor();
    var s1 := DoStep(Start(), true, 0, 0).value;
    EmptyLootIsWorthless(Yellow);
    AddLootValue(EmptyLoot(), Yellow, 1, Yellow);
    AddLootValue(s1.loot, Purple, 1, Yellow);
  }
}

=== FILE: scores.dfy ===
/**
  The tier score table. Scores are kept exactly, as integers counting
  TENTHS of a point, so the 0.5 and 0.3 factors of the table need no
  floating point: 0.5 is 5 and 0.3 * x is 3 * x for x in whole points.
 */
module Scores {

  /** A tier is a positive rank; 1 is the lowest. */
  type Tier = t: int | t >= 1 witness 1

  /** Scores of tiers 1..4 for the maximized colour, in tenths (1, 20, 100, 300 points). */
  const MaxColorTable: seq<int> := [10, 200, 1000, 3000]

  /** Scores of tiers 1..4 for the other colours, in tenths (0.5, 10, 50, 90 points). */
  const OtherColorTable: seq<int> := [5, 100, 500, 900]

  /** The high-tier formula of the maximized colour, in whole points. */
  function HighTier(t: int): int {
    300 + (t - 4) * (150 * (t - 3))
  }

  /** The score of one pick at tier `t`, in tenths; `isMax` tells whether it has the maximized colour. */
  function TierScore(t: Tier, isMax: bool): (r: int)
    ensures r >= 5
    ensures isMax ==> r >= 10
  {
    if t <= 4 then
      (if isMax then MaxColorTable[t - 1] else OtherColorTable[t - 1])
    else
      HighTierPositive(t);
      if isMax then 10 * HighTier(t) else 3 * HighTier(t)
  }

  lemma HighTierPositive(t: int)
    requires t >= 5
    ensures HighTier(t) >= 600
  {
    assert (t - 4) * (150 * (t - 3)) >= 1 * (150 * (t - 3));
  }

  /** Going one tier up adds 300 * (t - 3) points to the formula. */
  lemma HighTierStep(t: int)
    ensures HighTier(t + 1) == HighTier(t) + 300 * (t - 3)
  {
    calc {
      HighTier(t + 1);
      300 + (t - 3) * (150 * (t - 2));
      300 + 150 * ((t - 3) * (t - 2));
      { assert (t - 3) * (t - 2) == (t - 4) * (t - 3) + 2 * (t - 3); }
      300 + 150 * ((t - 4) * (t - 3)) + 300 * (t - 3);
      HighTier(t) + 300 * (t - 3);
    }
  }

  /** The breakpoints of the table, and the first value of the formula. */
  lemma ScoreTable()
    ensures TierScore(1, true) == 10 && TierScore(2, true) == 200
    ensures TierScore(3, true) == 1000 && TierScore(4, true) == 3000
    ensures TierScore(5, true) == 6000
    ensures TierScore(1, false) == 5 && TierScore(2, false) == 100
    ensures TierScore(3, false) == 500 && TierScore(4, false) == 900
    ensures TierScore(5, false) == 1800
  {
  }

  /** The fixed tier-4 entries of both tables coincide with the formula evaluated at tier 4. */
  lemma TableMeetsFormula()
    ensures MaxColorTable[3] == 10 * HighTier(4)
    ensures OtherColorTable[3] == 3 * HighTier(4)
  {
  }

  /** From tier 5 on, another colour is worth exactly 0.3 of the maximized colour. */
  lemma OtherIsThreeTenths(t: Tier)
    requires t >= 5
    ensures 10 * TierScore(t, false) == 3 * TierScore(t, true)
  {
  }

  /** At every tier the maximized colour is worth strictly more than the others. */
  lemma MaxColorBeatsOther(t: Tier)
    ensures TierScore(t, false) < TierScore(t, true)
  {
    if t >= 5 {
      HighTierPositive(t);
    }
  }

  lemma ScoreStep(t: Tier, isMax: bool)
    ensures TierScore(t, isMax) < TierScore(t + 1, isMax)
  {
    if t >= 5 {
      HighTierStep(t);
      HighTierPositive(t);
    } else if t == 4 {
      HighTierPositive(5);
      assert HighTier(5) == 600;
    }
  }

  /** Both score curves are strictly increasing in the tier. */
  lemma {:induction false} ScoreIncreasing(t1: Tier, t2: Tier, isMax: bool)
    requires t1 < t2
    ensures TierScore(t1, isMax) < TierScore(t2, isMax)
    decreases t2 - t1
  {
    ScoreStep(t1, isMax);
    if t1 + 1 < t2 {
      ScoreIncreasing(t1 + 1, t2, isMax);
    }
  }
}

=== FILE: selection.dfy ===
/**
  First-wins argmax: the scan used both by the greedy rollout and by the
  best-choice selector. Candidates are visited in scan order and the
  current best is replaced only by a STRICTLY greater value, so among
  equal maxima the first one visited wins.
 */
module Selection {
  import opened Wrappers
  import opened Queue

  /** The index the left-to-right scan with strict `>` ends on. */
  function FirstMax(vals: seq<int>): (k: nat)
    requires |vals| > 0
    ensures k < |vals|
    ensures forall i :: 0 <= i < |vals| ==> vals[i] <= vals[k]
    ensures forall i :: 0 <= i < k ==> vals[i] < vals[k]
  {
    if |vals| == 1 then 0
    else
      var k := FirstMax(vals[..|vals| - 1]);
      if vals[|vals| - 1] > vals[k] then |vals| - 1 else k
  }

  /** A scan result: the best pick so far and its value. */
  datatype Choice = Choice(pick: Pick, value: int)

  /**
    `p` is a valid pick of `q` whose value is greatest, and strictly
    greater than the value of every pick that comes before it in scan order.
   */
  ghost predicate IsFirstBest(q: seq<PickUnit>, value: Pick -> int, p: Pick) {
    && ValidPick(q, p)
    && (forall d :: ValidPick(q, d) ==> value(d) <= value(p))
    && (forall d :: ValidPick(q, d) && Before(d, p) ==> value(d) < value(p))
  }

  /** Scans the candidates of `q` and keeps the first strictly greatest value; None when there is none. */
  function SelectFirstBest(q: seq<PickUnit>, value: Pick -> int): (r: Option<Pick>)
    ensures r.None? <==> PendingSlots(q) == 0
    ensures r.Some? ==> IsFirstBest(q, value, r.value)
  {
    var cs := Candidates(q);
    if |cs| == 0 then None
    else
      var vals := seq(|cs|, k requires 0 <= k < |cs| => value(cs[k]));
      var k := FirstMax(vals);
      ScanFindsFirstBest(q, value, cs, vals, k);
      Some(cs[k])
  }

  /** The index the scan ends on names a first-wins best pick of the queue. */
  lemma ScanFindsFirstBest(q: seq<PickUnit>, value: Pick -> int, cs: seq<Pick>, vals: seq<int>, k: nat)
    requires cs == Candidates(q)
    requires |vals| == |cs| && 0 < |cs|
    requires forall a :: 0 <= a < |cs| ==> vals[a] == value(cs[a])
    requires k == FirstMax(vals)
    ensures IsFirstBest(q, value, cs[k])
  {
    forall d | ValidPick(q, d)
      ensures value(d) <= value(cs[k])
      ensures Before(d, cs[k]) ==> value(d) < value(cs[k])
    {
      assert d in cs;
      var a :| 0 <= a < |cs| && cs[a] == d;
      if k < a {
        assert Before(cs[k], cs[a]);
      }
    }
  }

  /** The first-wins best pick is unique, so the scan is deterministic. */
  lemma FirstBestUnique(q: seq<PickUnit>, value: Pick -> int, p1: Pick, p2: Pick)
    requires IsFirstBest(q, value, p1)
    requires IsFirstBest(q, value, p2)
    ensures p1 == p2
  {
  }

  /** What a scan knows after visiting every candidate before `cursor` and keeping `best`. */
  ghost predicate ScannedUpTo(q: seq<PickUnit>, value: Pick -> int, best: Option<Choice>, cursor: Pick) {
    && (best.None? ==> forall d :: ValidPick(q, d) ==> !Before(d, cursor))
    && (best.Some? ==>
          && ValidPick(q, best.value.pick)
          && Before(best.value.pick, cursor)
          && best.value.value == value(best.value.pick)
          && (forall d :: ValidPick(q, d) && Before(d, cursor) ==> value(d) <= best.value.value)
          && (forall d :: ValidPick(q, d) && Before(d, best.value.pick) ==> value(d) < best.value.value))
  }

  /** Visiting candidate (i, j), and keeping it only when strictly better, extends the scan by that candidate. */
  lemma ScanStep(q: seq<PickUnit>, value: Pick -> int, best: Option<Choice>, i: nat, j: nat)
    requires ValidPick(q, Pick(i, j))
    requires ScannedUpTo(q, value, best, Pick(i, j))
    ensures var v := value(Pick(i, j));
      ScannedUpTo(q, value, if best.None? || v > best.value.value then Some(Choice(Pick(i, j), v)) else best, Pick(i, j + 1))
  {
    forall d | ValidPick(q, d) && Before(d, Pick(i, j + 1))
      ensures d == Pick(i, j) || Before(d, Pick(i, j))
    {
    }
  }

  /** After the last slot of unit i, the scan has visited every candidate before unit i + 1. */
  lemma ScanNextUnit(q: seq<PickUnit>, value: Pick -> int, best: Option<Choice>, i: nat)
    requires i < |q|
    requires ScannedUpTo(q, value, best, Pick(i, |q[i].slots|))
    ensures ScannedUpTo(q, value, best, Pick(i + 1, 0))
  {
    forall d | ValidPick(q, d) && Before(d, Pick(i + 1, 0))
      ensures Before(d, Pick(i, |q[i].slots|))
    {
    }
  }

  /** A scan that has visited every candidate has found the first-wins best, if there is any candidate. */
  lemma ScanComplete(q: seq<PickUnit>, value: Pick -> int, best: Option<Choice>)
    requires ScannedUpTo(q, value, best, Pick(|q|, 0))
    ensures best.None? <==> PendingSlots(q) == 0
    ensures best.Some? ==> IsFirstBest(q, value, best.value.pick) && best.value.value == value(best.value.pick)
  {
    var cs := Candidates(q);
    if PendingSlots(q) != 0 {
      assert ValidPick(q, cs[0]) && Before(cs[0], Pick(|q|, 0));
    }
    if best.Some? {
      assert best.value.pick in cs;
    }
  }
}

=== FILE: wrappers.dfy ===
/** Option and Result: the absent value and the error path of the planner. */
module Wrappers {

  datatype Option<+T> = None | Some(value: T)

  /** The outcome of an operation that can fail with an error of type E. */
  datatype Result<+R, +E> = Success(value: R) | Failure(error: E)
}
